=== FILE: README.md ===
# LinkedBST in Dafny

This project models `LinkedBST`, a linked binary search tree collection, and proves properties
of the model. The model covers:

- **Lookup:** `find`, `__contains__` and `replace`.
- **Insertion:** `add`. Smaller items go left; equal and larger items go right.
- **Removal:** `remove`. A node with two children takes the maximum of its left subtree. Any
  other node is replaced by its only child, or by nothing.
- **Traversals:** the recursive `inorder` and the explicit-stack pre-order `__iter__`.
- **Shape:** `height` and `rebalance`. The rebalance rebuilds the tree by recursive midpoint
  split of the in-order list.
- **Order queries:** `successor`, `predecessor` and `range_find`. All three work on the
  in-order list.
- **Bookkeeping:** `clear`, and construction from a source collection.

The tree is an immutable datatype `Tree = Nil | Node(left, data, right)` over `int` items. The
collection state is `BST(root, size)`. The size is the counter the base class keeps. `Valid`
says the size equals the number of nodes, and every operation preserves it. Operations that
raise in the source return a `Result` whose `Failure` carries `KeyError`, `ValueError` or
`IndexError`. The exceptions are the collection's `successor` and `predecessor`: the code as
written (`OrderQueries.Successor`, `OrderQueries.Predecessor`) returns a `Result`, while
`LinkedBST.Successor` and `LinkedBST.Predecessor` return the corrected `Option` that the
methods' documentation promises, `None` included on an empty collection (see "## Findings").

Modules, one per file:

| module | file | contents |
|---|---|---|
| `Wrappers` | wrappers.dfy | `Option`, `Result` and the error kinds |
| `Sequences` | sequences.dfy | orderings of lists, `list.index`, sorted insertion, removal at a position |
| `Trees` | trees.dfy | the tree, its node count, in-order and pre-order lists, the search-tree ordering |
| `Lookup` | lookup.dfy | the `find` descent, `__contains__`, `replace` |
| `Insertion` | insertion.dfy | the `add` descent |
| `Removal` | removal.dfy | `remove` with the lift of the left subtree's maximum |
| `Shape` | shape.dfy | `height`, the midpoint rebuild, logarithm facts |
| `OrderQueries` | order_queries.dfy | `successor`, `predecessor`, `range_find`, as written and as intended |
| `LinkedBST` | linked_bst.dfy | the collection: state, invariants and the public operations |

Two orderings appear in the model:

- **Weak ordering:** the in-order list never decreases (`LinkedBST.Ordered`). `add`, `remove`,
  `rebalance` and `clear` keep it. `replace` keeps it only when the new item fits between the
  neighbours of the matched position (`LinkedBST.ReplaceKeepsOrderWhenFits`); otherwise it can
  break it (`LinkedBST.ReplaceMayBreakOrdering`).
- **Documented ordering:** everything in a left subtree is strictly smaller than its node, and
  everything in a right subtree is greater or equal (`Trees.IsBST`).
  - `add` always keeps it.
  - `remove` and `rebalance` keep it on duplicate-free trees.
  - With duplicates they can break it. The lemmas `Removal.DuplicateMayBreakStrictOrdering` and
    `Shape.DuplicateMayBreakStrictOrderingOnRebuild` give concrete trees where this happens.

Two details of the code fix the shape of the tree:

- `rebalance` puts `items[len // 2]` at each root (linkedbst.py:284-285). On an even-length list
  that is the upper of the two middle items.
- `height` gives 0 for an empty tree, for a leaf and for an absent child (linkedbst.py:247-250).

## Model

| member | source | states |
|---|---|---|
| Lookup.Find | linkedbst.py:84-98 | an item that `find` returns equals the probe and is stored in the tree |
| Lookup.FindComplete | linkedbst.py:84-98 | under the weak ordering, `find` matches exactly when the probe is stored; it never misses a stored item |
| Lookup.Locate | linkedbst.py:169-179 | the in-order position of the node where the descent stops is within the tree |
| Lookup.LocateFindsItem | linkedbst.py:169-172 | the node where the descent stops holds the probe |
| Lookup.LocateIffContains | linkedbst.py:80-82 | the descent stops at a node exactly when `__contains__` is true |
| Lookup.Replace | linkedbst.py:219-233 | `replace` returns what `find` would return; the shape is unchanged; when nothing matches the tree is unchanged; otherwise only the matched node's item becomes the new item |
| Lookup.Contains | linkedbst.py:80-82 | `__contains__` is true only for a stored item |
| LinkedBST.Contains | linkedbst.py:80-82 | at the collection level `__contains__` is true only for a stored item, and under the weak ordering exactly for the stored items |
| LinkedBST.Find | linkedbst.py:84-98 | at the collection level: a returned item equals the probe; under the weak ordering it is returned exactly when stored |
| LinkedBST.ReplaceKeepsOrderWhenFits | linkedbst.py:219-233 | when the new item lies between the neighbours of the matched position, `replace` keeps the weak ordering |
| LinkedBST.ReplaceMayBreakOrdering | linkedbst.py:219-233 | `replace` accepts any new item: replacing the root 1 of the tree holding 1 and 2 by 5 gives the in-order list `[5, 2]` |
| LinkedBST.Replace | linkedbst.py:219-233 | the old item comes back exactly when the descent matches; only that position of the in-order list changes; size and shape are kept |
| Insertion.Insert | linkedbst.py:110-122 | the new leaf adds one node and exactly one occurrence of the item |
| Insertion.InsertInorder | linkedbst.py:110-122 | on a weakly ordered tree the new in-order list is the old one with the item placed after every item not larger than it |
| Insertion.InsertKeepsBst | linkedbst.py:110-122 | `add` keeps the documented ordering |
| LinkedBST.Add | linkedbst.py:106-131 | size grows by one, also for a duplicate; one occurrence is added; an empty collection gets the item as its root; both orderings are kept |
| Removal.RemoveMax | linkedbst.py:142-157 | the lift takes the last item of the left subtree's in-order list and leaves the rest in order |
| Removal.LiftedItemIsMaximum | linkedbst.py:142-153 | under the weak ordering the lifted item is the largest item of the left subtree |
| Removal.RemoveRoot | linkedbst.py:186-207 | unlinking a node leaves its left items then its right items, in every case |
| Removal.Delete | linkedbst.py:160-182 | when the descent finds nothing, the tree is unchanged |
| Removal.DeleteInorder | linkedbst.py:169-207 | the in-order list loses exactly the item at the position where the descent stops, and nothing else moves |
| Removal.DeleteRemovesOne | linkedbst.py:186-212 | when the item is found, one occurrence leaves the items, the count drops by one and the weak ordering is kept |
| Removal.DeleteKeepsBst | linkedbst.py:186-216 | on a duplicate-free tree `remove` keeps the documented ordering |
| Removal.DuplicateMayBreakStrictOrdering | linkedbst.py:142-157 | with duplicates the lift can leave an item equal to the node's new item in its left subtree, so the documented ordering breaks while the weak ordering holds |
| LinkedBST.Remove | linkedbst.py:134-217 | `KeyError` exactly when the item is not found; under the weak ordering, success exactly when stored; returns the item; size drops by one; one occurrence leaves; orderings kept as above; an emptied collection has no root |
| LinkedBST.Clear | linkedbst.py:101-104 | the collection becomes empty with size 0 |
| LinkedBST.Empty | linkedbst.py:20-24 | a new collection is valid, ordered and holds nothing |
| LinkedBST.RootAbsentIffEmpty | linkedbst.py:126-127 | with the size kept, the root is absent exactly when the size is 0 |
| LinkedBST.InorderTraversal | linkedbst.py:59-70 | the in-order list has as many items as the size, and is non-decreasing under the documented ordering |
| Trees.BstInorderSorted | linkedbst.py:59-70 | the documented ordering makes the in-order list non-decreasing |
| Trees.DuplicateFreeBstIff | linkedbst.py:59-70 | for a duplicate-free tree the documented ordering holds exactly when the in-order list strictly increases |
| Trees.Preorder | linkedbst.py:42-53 | the pre-order list is a permutation of the in-order list |
| LinkedBST.Iterate | linkedbst.py:42-53 | the stack-driven iteration yields exactly the pre-order list |
| LinkedBST.IterateStep | linkedbst.py:47-53 | one pop-and-push turn: the popped item followed by what is then pending is exactly what was pending before, so what is pending shrinks |
| Shape.Height | linkedbst.py:241-257 | a non-empty tree's height is below its node count |
| Shape.HeightCountsEdges | linkedbst.py:241-257 | the height is the number of levels minus one, and 0 for the empty tree |
| Shape.HeightAtLeastLog2 | linkedbst.py:241-257 | no tree of n nodes has height below floor(log2 n) |
| Shape.Build | linkedbst.py:281-285 | the rebuilt tree's in-order list is the list it was built from |
| Shape.BuildHeight | linkedbst.py:281-285 | a tree rebuilt from n >= 1 items has height floor(log2 n) |
| Shape.BuildIsShortest | linkedbst.py:281-285 | no tree with as many items is shorter than the rebuilt one |
| Shape.BuildSizeBalanced | linkedbst.py:281-285 | at every node the left subtree has as many items as the right, or one more |
| Shape.BuildStrictlySortedIsBst | linkedbst.py:281-285 | a strictly increasing list is rebuilt with the documented ordering |
| Shape.DuplicateMayBreakStrictOrderingOnRebuild | linkedbst.py:284-285 | `[3, 3]` is rebuilt with a 3 in the root's left subtree |
| LinkedBST.Rebalance | linkedbst.py:276-288 | size and in-order list are unchanged; the height becomes floor(log2 n) and never grows; every node is size-balanced; a duplicate-free tree keeps the documented ordering |
| OrderQueries.NearestIndex | linkedbst.py:302 | `min` with key `abs(x - item)`, also used by `predecessor` at line 319: a position whose item is nearest to the probe, and the first such position |
| OrderQueries.Successor | linkedbst.py:290-305 | `successor` as written: an empty list raises `IndexError` and that is the only error it raises; a stored item never raises; an answer is a stored item; none only when the probe is at least the last item, and on a non-decreasing list always then. Its answers on stored items are given by `OrderQueries.SuccessorOfStored` |
| OrderQueries.Predecessor | linkedbst.py:307-322 | `predecessor` as written: it raises `IndexError` exactly on an empty list; an answer is a stored item; none only when the probe is at most the first item, and on a non-decreasing list always then. Its answers on stored items are given by `OrderQueries.PredecessorOfStored` |
| OrderQueries.SuccessorOfStored | linkedbst.py:304-305 | for a stored item of a duplicate-free list, `successor` is the next item, or none after the last; on a strictly increasing list that is the smallest larger item |
| OrderQueries.PredecessorOfStored | linkedbst.py:321-322 | for a stored item of a duplicate-free list, `predecessor` is the previous item, or none before the first; on a strictly increasing list that is the largest smaller item |
| OrderQueries.SuccessorFixed | linkedbst.py:290-298 | on a non-decreasing list: the smallest stored item above the probe, and none exactly when nothing stored is above it |
| OrderQueries.PredecessorFixed | linkedbst.py:307-315 | on a non-decreasing list: the largest stored item below the probe, and none exactly when nothing stored is below it |
| OrderQueries.SuccessorSkipsNearestAbove | linkedbst.py:299-303 | on `[1, 5, 9]` and 4, `successor` gives 9 where the smallest larger item is 5 |
| OrderQueries.SuccessorSkipsSmallest | linkedbst.py:299-303 | on `[1, 3, 5]` and 0, `successor` gives 3 where the smallest larger item is 1 |
| OrderQueries.SuccessorRaisesBelowLast | linkedbst.py:299-303 | on `[1, 5]` and 4, `successor` raises `IndexError` where the answer is 5 |
| OrderQueries.SuccessorRaisesOnEmpty | linkedbst.py:299-300 | on an empty list `successor` raises `IndexError`, where the answer is none |
| OrderQueries.PredecessorRaisesOnEmpty | linkedbst.py:316-317 | on an empty list `predecessor` raises `IndexError`, where the answer is none |
| OrderQueries.PredecessorReturnsLargerNearest | linkedbst.py:316-320 | on `[1, 5]` and 4, `predecessor` gives 5, which is larger than the probe, where the answer is 1 |
| LinkedBST.Successor | linkedbst.py:290-305 | under the weak ordering, the smallest stored item larger than the probe, and none only when no stored item is larger; for a stored item of a duplicate-free search tree, the code as written returns the same answer |
| LinkedBST.Predecessor | linkedbst.py:307-322 | under the weak ordering, the largest stored item smaller than the probe, and none only when no stored item is smaller; for a stored item of a duplicate-free search tree, the code as written returns the same answer |
| OrderQueries.RangeFind | linkedbst.py:273-274 | `ValueError` exactly when a bound is not stored |
| OrderQueries.RangeFindBetween | linkedbst.py:266-274 | with both bounds stored in a strictly increasing list, the result is strictly increasing and holds exactly the stored items from `low` to `high` |
| OrderQueries.RangeFindReversedIsEmpty | linkedbst.py:273-274 | with both bounds stored in a non-decreasing list and `high < low`, the result is empty |
| LinkedBST.RangeFind | linkedbst.py:266-274 | `ValueError` exactly when a bound is absent; on a duplicate-free search tree, exactly the items from `low` to `high`, increasing |
| LinkedBST.FromItems | linkedbst.py:20-24 | building from a list holds exactly its items, keeps both orderings and counts them |
| LinkedBST.RemoveEveryItemEmpties | linkedbst.py:134-217 | from a valid, weakly ordered collection, removing every stored item, in any order, succeeds each time and ends with the empty collection |
| LinkedBST.AddThenRemoveAllEmpties | linkedbst.py:106-217 | adding a list of items to a new collection and removing them all gives back an empty collection |

## Left out

- `is_balanced` (linkedbst.py:259-264): it compares against a floating-point natural logarithm, and the model has no floating point.
- `__str__` (linkedbst.py:27-40): string rendering only.
- `demo_bst` and the module-level driver: file reading, clocks, random choice and printing.
- The `preorder`, `postorder` and `levelorder` stubs (linkedbst.py:55-78): they return `None` and hold no logic.
- `sys.setrecursionlimit` (linkedbst.py:14): the recursion depth of the interpreter has no counterpart in the model.
- `AbstractCollection`, `BSTNode`, `LinkedStack` and `LinkedQueue` are not part of this model. The node is the `Tree` datatype. The stack of `__iter__` is a sequence whose first element is the top. `_size` is the `size` field. `isEmpty` is `size == 0`.
- Construction from a source collection: the base class's constructor is not part of this model. `LinkedBST.FromItems` assumes it adds the items one at a time, in order.
- LinkedBST.Remove: the early returns for an empty tree and for a failed search (linkedbst.py:160 and 182) are not separate branches. The `__contains__` check at linkedbst.py:138 has already raised `KeyError` in both cases, so neither return can happen.
- LinkedBST.Height has no contract of its own. Its properties are stated on `Shape.Height`, `Shape.HeightCountsEdges` and `LinkedBST.Rebalance`.
- Removal.DeleteKeepsBst and LinkedBST.Rebalance: the documented ordering is proved kept only on duplicate-free trees, because with duplicates it does not hold. The weak ordering is proved kept on every tree.
- LinkedBST.RemoveEveryItemEmpties: holds only from a weakly ordered collection. After a `replace` that breaks the ordering (`LinkedBST.ReplaceMayBreakOrdering`), `find` can pass by a stored item, and `remove` then raises `KeyError` for it.
- Items are mathematical integers. The source accepts any comparable items, and its nearest-item search needs subtraction on them.
- Mutation in place becomes returning a new value. Python object identity and aliasing between nodes are not modelled, since every node has exactly one owner.

## Findings

| source | as written | input that shows it | evidently intended | confidence | as-written member | corrected member |
|---|---|---|---|---|---|---|
| linkedbst.py:302-303 | for an absent item, `successor` returns the item after the nearest stored item, even when the nearest item is itself larger than the probe | in-order list `[1, 5, 9]`, probe 4: returns 9 | 5, the smallest stored item larger than the probe | not executed | OrderQueries.SuccessorSkipsNearestAbove | OrderQueries.SuccessorFixed |
| linkedbst.py:299-303 | an absent item below every stored item is not special-cased, so the smallest stored item is skipped | in-order list `[1, 3, 5]`, probe 0: returns 3 | 1 | not executed | OrderQueries.SuccessorSkipsSmallest | OrderQueries.SuccessorFixed |
| linkedbst.py:300-303 | when the nearest stored item is the last one, the slice after it is empty and `[0]` raises | in-order list `[1, 5]`, probe 4: raises `IndexError` | 5 | not executed | OrderQueries.SuccessorRaisesBelowLast | OrderQueries.SuccessorFixed |
| linkedbst.py:300 | on an empty collection the probe is absent and `[-1]` of the empty in-order list raises | empty collection, any probe: raises `IndexError` | `None`, as the documentation at lines 292-293 promises when no item is larger | not executed | OrderQueries.SuccessorRaisesOnEmpty | OrderQueries.SuccessorFixed |
| linkedbst.py:317 | on an empty collection the probe is absent and `[0]` of the empty in-order list raises | empty collection, any probe: raises `IndexError` | `None`, as the documentation at lines 309-310 promises when no item is smaller | not executed | OrderQueries.PredecessorRaisesOnEmpty | OrderQueries.PredecessorFixed |
| linkedbst.py:319-320 | for an absent item, `predecessor` returns the nearest stored item itself, even when it is larger than the probe | in-order list `[1, 5]`, probe 4: returns 5 | 1, the largest stored item smaller than the probe | not executed | OrderQueries.PredecessorReturnsLargerNearest | OrderQueries.PredecessorFixed |

The as-written versions are `OrderQueries.Successor` and `OrderQueries.Predecessor`, including
the `IndexError` each raises on an empty collection, where the corrected versions give `None`. `OrderQueries.SuccessorOfStored` and
`OrderQueries.PredecessorOfStored` prove that for stored items of a duplicate-free tree they
agree with the corrected definitions. The collection's `LinkedBST.Successor` and
`LinkedBST.Predecessor` return the corrected answers, and their contracts state that
agreement.

=== FILE: insertion.dfy ===
/** `add`: a new leaf at the end of the descent; equal items go right. */
module Insertion {
  import opened Sequences
  import opened Trees

  /** The descent of `add`: left while `x` is smaller than the node's item, otherwise right,
      hanging a new leaf in the first empty slot. */
  function Insert(t: Tree, x: int): (r: Tree)
    ensures Count(r) == Count(t) + 1
    ensures multiset(Inorder(r)) == multiset(Inorder(t)) + multiset{x}
  {
    match t
    case Nil => Node(Nil, x, Nil)
    case Node(l, v, rt) =>
      if x < v then Node(Insert(l, x), v, rt)
      else Node(l, v, Insert(rt, x))
  }

  /** On a tree with a non-decreasing in-order list, the new in-order list is the old one with
      `x` in sorted position, after any items equal to it. */
  lemma {:induction false} InsertInorder(t: Tree, x: int)
    requires Sorted(Inorder(t))
    ensures Inorder(Insert(t, x)) == SortedInsert(Inorder(t), x)
  {
    match t
    case Nil =>
    case Node(l, v, rt) =>
      SortedSplit(Inorder(l), v, Inorder(rt));
      if x < v {
        InsertInorder(l, x);
        SortedInsertBeforePivot(Inorder(l), v, Inorder(rt), x);
      } else {
        InsertInorder(rt, x);
        assert forall i :: 0 <= i < |Inorder(l)| ==> Inorder(l)[i] in Inorder(l);
        SortedInsertAfterPivot(Inorder(l), v, Inorder(rt), x);
      }
  }

  lemma InsertMembers(t: Tree, x: int)
    ensures forall y :: y in Inorder(Insert(t, x)) <==> y in Inorder(t) || y == x
  {
    var a, b := Inorder(Insert(t, x)), Inorder(t);
    assert multiset(a) == multiset(b) + multiset{x};
    forall y ensures y in a <==> y in b || y == x {
      assert y in a <==> y in multiset(a);
      assert y in b <==> y in multiset(b);
    }
  }

  /** `add` keeps the documented ordering: the new leaf lands below every node on its path on
      the side that node's comparison chose. */
  lemma {:induction false} InsertKeepsBst(t: Tree, x: int)
    requires IsBST(t)
    ensures IsBST(Insert(t, x))
  {
    match t
    case Nil =>
    case Node(l, v, rt) =>
      if x < v {
        InsertKeepsBst(l, x);
        InsertLeftKeepsBst(l, v, rt, x);
      } else {
        InsertKeepsBst(rt, x);
        InsertRightKeepsBst(l, v, rt, x);
      }
  }

  /** The step of `InsertKeepsBst` for a descent that turns left at the root. */
  lemma InsertLeftKeepsBst(l: Tree, v: int, rt: Tree, x: int)
    requires IsBST(Node(l, v, rt)) && x < v && IsBST(Insert(l, x))
    ensures IsBST(Insert(Node(l, v, rt), x))
  {
    var l' := Insert(l, x);
    InsertMembers(l, x);
    assert forall y :: y in Inorder(l') ==> y < v;
    assert Insert(Node(l, v, rt), x) == Node(l', v, rt);
  }

  /** The step of `InsertKeepsBst` for a descent that turns right at the root. */
  lemma InsertRightKeepsBst(l: Tree, v: int, rt: Tree, x: int)
    requires IsBST(Node(l, v, rt)) && v <= x && IsBST(Insert(rt, x))
    ensures IsBST(Insert(Node(l, v, rt), x))
  {
    var rt' := Insert(rt, x);
    InsertMembers(rt, x);
    assert forall y :: y in Inorder(rt') ==> v <= y;
    assert Insert(Node(l, v, rt), x) == Node(l, v, rt');
  }
}

=== FILE: linked_bst.dfy ===
/** The collection `LinkedBST`: a root and the item count kept beside it, with the public
    operations of the class. */
module LinkedBST {
  import opened Wrappers
  import opened Sequences
  import opened Trees
  import Lookup
  import Insertion
  import Removal
  import Shape
  import OrderQueries

  /** The state of a `LinkedBST`: `_root` and the collection's `_size`. */
  datatype BST = BST(root: Tree, size: nat)

  /** The bookkeeping every operation keeps: `_size` is the number of nodes. */
  predicate Valid(s: BST) {
    s.size == Count(s.root)
  }

  /** The weak search-tree ordering every mutator keeps: the in-order list never decreases. */
  predicate Ordered(s: BST) {
    Sorted(Inorder(s.root))
  }

  /** A new collection, or one after `clear`: no root, size 0. */
  function Empty(): (s: BST)
    ensures Valid(s) && Ordered(s) && IsBST(s.root)
    ensures Inorder(s.root) == []
  {
    BST(Nil, 0)
  }

  /** `clear`: whatever the collection held, it becomes empty. */
  function Clear(s: BST): (r: BST)
    ensures Valid(r) && r.size == 0 && Inorder(r.root) == []
  {
    Empty()
  }

  /** With the bookkeeping kept, the root is absent exactly when the size is 0. */
  lemma RootAbsentIffEmpty(s: BST)
    requires Valid(s)
    ensures s.root == Nil <==> s.size == 0
  {
  }

  /** `inorder`: the items left subtree first; as many as the size says, and non-decreasing under
      the documented ordering. */
  function InorderTraversal(s: BST): (xs: seq<int>)
    ensures Valid(s) ==> |xs| == s.size
    ensures IsBST(s.root) ==> Sorted(xs)
  {
    assert IsBST(s.root) ==> Sorted(Inorder(s.root)) by {
      if IsBST(s.root) {
        BstInorderSorted(s.root);
      }
    }
    Inorder(s.root)
  }

  /** `find`: the stored item equal to `x`, or `None`; under the weak ordering it is found
      exactly when it is stored. */
  function Find(s: BST, x: int): (r: Option<int>)
    ensures r.Some? ==> r.value == x
    ensures Ordered(s) ==> (r.Some? <==> x in Inorder(s.root))
  {
    assert Ordered(s) ==> (Lookup.Contains(s.root, x) <==> x in Inorder(s.root)) by {
      if Ordered(s) {
        Lookup.FindComplete(s.root, x);
      }
    }
    Lookup.Find(s.root, x)
  }

  /** `__contains__`: `find` did not return `None`. */
  predicate Contains(s: BST, x: int)
    ensures Contains(s, x) ==> x in Inorder(s.root)
    ensures Ordered(s) ==> (Contains(s, x) <==> x in Inorder(s.root))
  {
    Find(s, x) != None
  }

  /** `add`: an empty collection gets `x` as its root; otherwise `x` hangs as a new leaf where
      the descent ends. The size grows by one even when `x` is already stored. */
  function Add(s: BST, x: int): (r: BST)
    requires Valid(s)
    ensures Valid(r) && r.size == s.size + 1
    ensures multiset(Inorder(r.root)) == multiset(Inorder(s.root)) + multiset{x}
    ensures s.size == 0 ==> r.root == Node(Nil, x, Nil)
    ensures Ordered(s) ==> Inorder(r.root) == SortedInsert(Inorder(s.root), x) && Ordered(r)
    ensures IsBST(s.root) ==> IsBST(r.root)
  {
    if s.size == 0 then
      BST(Node(Nil, x, Nil), s.size + 1)
    else
      var t := Insertion.Insert(s.root, x);
      assert Ordered(s) ==> Inorder(t) == SortedInsert(Inorder(s.root), x) by {
        if Ordered(s) {
          Insertion.InsertInorder(s.root, x);
        }
      }
      assert IsBST(s.root) ==> IsBST(t) by {
        if IsBST(s.root) {
          Insertion.InsertKeepsBst(s.root, x);
        }
      }
      BST(t, s.size + 1)
  }

  /** `remove`: `KeyError` when `find` would not match; otherwise the matched node is unlinked,
      the size drops by one, and `x` is returned. Exactly one occurrence of `x` leaves the
      items, the weak ordering is kept, and an emptied collection has no root. */
  function Remove(s: BST, x: int): (r: Result<(BST, int)>)
    requires Valid(s)
    ensures r.Failure? <==> !Contains(s, x)
    ensures r.Failure? ==> r.error == KeyError
    ensures Ordered(s) ==> (r.Success? <==> x in Inorder(s.root))
    ensures r.Success? ==> r.value.1 == x
    ensures r.Success? ==> Valid(r.value.0) && r.value.0.size == s.size - 1
    ensures r.Success? ==>
              multiset(Inorder(r.value.0.root)) == multiset(Inorder(s.root)) - multiset{x}
    ensures r.Success? && Ordered(s) ==> Ordered(r.value.0)
    ensures r.Success? && r.value.0.size == 0 ==> r.value.0.root == Nil
    ensures r.Success? && IsBST(s.root) && NoDuplicates(Inorder(s.root)) ==>
              IsBST(r.value.0.root)
  {
    if !Lookup.Contains(s.root, x) then
      Failure(KeyError)
    else
      var t := Removal.Delete(s.root, x);
      Removal.DeleteRemovesOne(s.root, x);
      assert IsBST(s.root) && NoDuplicates(Inorder(s.root)) ==> IsBST(t) by {
        if IsBST(s.root) && NoDuplicates(Inorder(s.root)) {
          Removal.DeleteKeepsBst(s.root, x);
        }
      }
      var n := s.size - 1;
      Success((BST(if n == 0 then Nil else t, n), x))
  }

  /** `replace`: the node `find` would match gets `y` as its item and the old item is returned;
      when nothing matches, `None` and no change. Only that node's item changes. */
  function Replace(s: BST, x: int, y: int): (r: (BST, Option<int>))
    ensures r.1 == Find(s, x)
    ensures r.0.size == s.size && SameShape(r.0.root, s.root)
    ensures r.1.None? ==> r.0 == s
    ensures r.1.Some? <==> Lookup.Locate(s.root, x).Some?
    ensures r.1.Some? ==>
              && Lookup.Locate(s.root, x).Some?
              && var p := Lookup.Locate(s.root, x).value;
                 Inorder(s.root)[p] == x && Inorder(r.0.root) == Inorder(s.root)[p := y]
    ensures Valid(s) ==> Valid(r.0)
  {
    Lookup.LocateIffContains(s.root, x);
    Lookup.LocateFindsItem(s.root, x);
    var (t, prev) := Lookup.Replace(s.root, x, y);
    (BST(t, s.size), prev)
  }

  /** `replace` takes any new item, so it keeps the weak ordering only when the new item fits
      between the neighbours of the matched position. */
  lemma ReplaceKeepsOrderWhenFits(s: BST, x: int, y: int)
    requires Ordered(s) && Lookup.Locate(s.root, x).Some?
    requires var xs, p := Inorder(s.root), Lookup.Locate(s.root, x).value;
             && (p == 0 || xs[p - 1] <= y)
             && (p + 1 == |xs| || y <= xs[p + 1])
    ensures Ordered(Replace(s, x, y).0)
  {
    var xs, p := Inorder(s.root), Lookup.Locate(s.root, x).value;
    SortedUpdate(xs, p, y);
  }

  /** A new item that does not fit breaks the ordering: in the tree with 1 at the root and 2 as
      its right child, replacing 1 by 5 gives the in-order list `[5, 2]`. */
  lemma ReplaceMayBreakOrdering()
    ensures var s := BST(Node(Nil, 1, Node(Nil, 2, Nil)), 2);
            && Valid(s) && Ordered(s)
            && Replace(s, 1, 5) == (BST(Node(Nil, 5, Node(Nil, 2, Nil)), 2), Some(1))
            && Inorder(Replace(s, 1, 5).0.root) == [5, 2]
            && !Ordered(Replace(s, 1, 5).0)
  {
    var leaf := Node(Nil, 2, Nil);
    var s := BST(Node(Nil, 1, leaf), 2);
    assert Inorder(leaf) == [2];
    assert Inorder(s.root) == [1, 2];
    assert Lookup.Find(s.root, 1) == Some(1);
    assert Lookup.Replace(s.root, 1, 5) == (Node(Nil, 5, leaf), Some(1));
    assert Replace(s, 1, 5) == (BST(Node(Nil, 5, leaf), 2), Some(1));
    assert Inorder(Node(Nil, 5, leaf)) == [5, 2];
    var xs := Inorder(Replace(s, 1, 5).0.root);
    assert xs[0] > xs[1];
  }

  /** The items still waiting on the iteration stack, each subtree in pre-order. The stack is
      a list whose first element is the top. */
  function Pending(stack: seq<Tree>): seq<int> {
    if |stack| == 0 then [] else Preorder(stack[0]) + Pending(stack[1..])
  }

  /** The stack of `__iter__` only ever holds nodes. */
  predicate AllNodes(stack: seq<Tree>) {
    forall i :: 0 <= i < |stack| ==> stack[i].Node?
  }

  /** Pushes `t` unless it is the empty tree. */
  function PushPresent(stack: seq<Tree>, t: Tree): (r: seq<Tree>)
    ensures Pending(r) == Preorder(t) + Pending(stack)
    ensures AllNodes(stack) ==> AllNodes(r)
  {
    if t != Nil then
      assert ([t] + stack)[1..] == stack;
      [t] + stack
    else
      assert Preorder(t) + Pending(stack) == Pending(stack);
      stack
  }

  /** One turn of the loop of `__iter__`: popping the top node emits its item and leaves its
      two subtrees, left first, ahead of the rest of the stack. */
  lemma IterateStep(stack: seq<Tree>)
    requires |stack| > 0 && AllNodes(stack)
    ensures var next := PushPresent(PushPresent(stack[1..], stack[0].right), stack[0].left);
            && AllNodes(next)
            && [stack[0].data] + Pending(next) == Pending(stack)
            && |Pending(next)| < |Pending(stack)|
  {
    var node, rest := stack[0], stack[1..];
    var a, b, c := Preorder(node.left), Preorder(node.right), Pending(rest);
    var next := PushPresent(PushPresent(rest, node.right), node.left);
    assert AllNodes(next) by {
      assert AllNodes(rest);
    }
    calc {
      [node.data] + Pending(next);
      [node.data] + (a + (b + c));
      { ConcatAssoc(a, b, c); }
      [node.data] + (a + b + c);
      { ConcatAssoc([node.data], a + b, c); ConcatAssoc([node.data], a, b); }
      [node.data] + a + b + c;
      Preorder(node) + c;
      Pending(stack);
    }
  }

  /** `__iter__`: pop a node, yield its item, push its right child and then its left child when
      present. The items come out in pre-order. */
  method Iterate(s: BST) returns (out: seq<int>)
    requires Valid(s)
    ensures out == Preorder(s.root)
  {
    out := [];
    if s.size != 0 {
      var stack := [s.root];
      assert Pending(stack) == Preorder(s.root) by {
        assert stack[1..] == [];
      }
      while |stack| > 0
        invariant AllNodes(stack)
        invariant out + Pending(stack) == Preorder(s.root)
        decreases |Pending(stack)|
      {
        var node := stack[0];
        var next := PushPresent(PushPresent(stack[1..], node.right), node.left);
        IterateStep(stack);
        ConcatAssoc(out, [node.data], Pending(next));
        out := out + [node.data];
        stack := next;
      }
    }
  }

  /** `height` of the collection's tree. */
  function Height(s: BST): nat {
    Shape.Height(s.root)
  }

  /** `rebalance`: rebuild from the in-order list by midpoint split. The items, their order and
      the size are unchanged; the new height is `floor(log2 n)`, which no tree of `n` items
      beats, so it never grows. */
  function Rebalance(s: BST): (r: BST)
    ensures r.size == s.size
    ensures Inorder(r.root) == Inorder(s.root)
    ensures Valid(s) ==> Valid(r)
    ensures Valid(s) && s.size >= 1 ==> Height(r) == Shape.Log2(s.size)
    ensures Height(r) <= Height(s)
    ensures Shape.SizeBalanced(r.root)
    ensures StrictlySorted(Inorder(s.root)) ==> IsBST(r.root)
  {
    var xs := Inorder(s.root);
    var t := Shape.Build(xs);
    Shape.BuildSizeBalanced(xs);
    assert |xs| >= 1 ==>
             Shape.Height(t) == Shape.Log2(|xs|) && Shape.Height(t) <= Shape.Height(s.root) by {
      if |xs| >= 1 {
        Shape.BuildHeight(xs);
        Shape.BuildIsShortest(xs, s.root);
      }
    }
    assert StrictlySorted(xs) ==> IsBST(t) by {
      if StrictlySorted(xs) {
        Shape.BuildStrictlySortedIsBst(xs);
      }
    }
    BST(t, s.size)
  }

  /** `successor`, as its documentation promises: the smallest stored item larger than `x`, or
      `None` when there is none. On a stored item of a duplicate-free search tree the code as
      written gives the same answer; on an absent item it need not (see
      `OrderQueries.SuccessorSkipsNearestAbove`). */
  function Successor(s: BST, x: int): (r: Option<int>)
    ensures Ordered(s) && r.None? ==> forall v :: v in Inorder(s.root) ==> v <= x
    ensures Ordered(s) && r.Some? ==>
              && r.value in Inorder(s.root) && x < r.value
              && forall v :: v in Inorder(s.root) && x < v ==> r.value <= v
    ensures IsBST(s.root) && NoDuplicates(Inorder(s.root)) && x in Inorder(s.root) ==>
              OrderQueries.Successor(Inorder(s.root), x) == Success(r)
  {
    var xs := Inorder(s.root);
    var r := OrderQueries.SuccessorFixed(xs, x);
    assert Ordered(s) ==> Sorted(xs);
    assert Ordered(s) && r.None? ==> forall v :: v in Inorder(s.root) ==> v <= x;
    assert Ordered(s) && r.Some? ==> r.value in xs && x < r.value;
    assert IsBST(s.root) && NoDuplicates(Inorder(s.root)) && x in Inorder(s.root) ==>
             OrderQueries.Successor(Inorder(s.root), x) == Success(r) by {
      if IsBST(s.root) && NoDuplicates(xs) && x in xs {
        BstInorderSorted(s.root);
        StrictlySortedFromSorted(xs);
        var p :| 0 <= p < |xs| && xs[p] == x;
        OrderQueries.SuccessorOfStored(xs, x, p);
      }
    }
    r
  }

  /** `predecessor`, as its documentation promises: the largest stored item smaller than `x`,
      or `None` when there is none. On a stored item of a duplicate-free search tree the code as
      written gives the same answer; on an absent item it need not (see
      `OrderQueries.PredecessorReturnsLargerNearest`). */
  function Predecessor(s: BST, x: int): (r: Option<int>)
    ensures Ordered(s) && r.None? ==> forall v :: v in Inorder(s.root) ==> x <= v
    ensures Ordered(s) && r.Some? ==>
              && r.value in Inorder(s.root) && r.value < x
              && forall v :: v in Inorder(s.root) && v < x ==> v <= r.value
    ensures IsBST(s.root) && NoDuplicates(Inorder(s.root)) && x in Inorder(s.root) ==>
              OrderQueries.Predecessor(Inorder(s.root), x) == Success(r)
  {
    var xs := Inorder(s.root);
    var r := OrderQueries.PredecessorFixed(xs, x);
    assert Ordered(s) ==> Sorted(xs);
    assert Ordered(s) && r.None? ==> forall v :: v in Inorder(s.root) ==> x <= v;
    assert Ordered(s) && r.Some? ==> r.value in xs && r.value < x;
    assert IsBST(s.root) && NoDuplicates(Inorder(s.root)) && x in Inorder(s.root) ==>
             OrderQueries.Predecessor(Inorder(s.root), x) == Success(r) by {
      if IsBST(s.root) && NoDuplicates(xs) && x in xs {
        BstInorderSorted(s.root);
        StrictlySortedFromSorted(xs);
        var p :| 0 <= p < |xs| && xs[p] == x;
        OrderQueries.PredecessorOfStored(xs, x, p);
      }
    }
    r
  }

  /** `range_find` on the collection's in-order list: `ValueError` for a bound not stored; on a
      duplicate-free search tree, exactly the stored items from `low` to `high`, increasing. */
  function RangeFind(s: BST, low: int, high: int): (r: Result<seq<int>>)
    ensures r.Failure? <==> low !in Inorder(s.root) || high !in Inorder(s.root)
    ensures r.Failure? ==> r.error == ValueError
    ensures r.Success? && IsBST(s.root) && NoDuplicates(Inorder(s.root)) ==>
              StrictlySorted(r.value)
              && forall v :: v in r.value <==> v in Inorder(s.root) && low <= v <= high
  {
    var xs := Inorder(s.root);
    assert IsBST(s.root) && NoDuplicates(xs) && low in xs && high in xs ==>
             var r := OrderQueries.RangeFind(xs, low, high).value;
             StrictlySorted(r) && forall v :: v in r <==> v in xs && low <= v <= high by {
      if IsBST(s.root) && NoDuplicates(xs) && low in xs && high in xs {
        BstInorderSorted(s.root);
        StrictlySortedFromSorted(xs);
        OrderQueries.RangeFindBetween(xs, low, high);
      }
    }
    OrderQueries.RangeFind(xs, low, high)
  }

  /** Construction from a source collection: each item added in turn. The result holds exactly
      those items, in non-decreasing order, with the documented ordering. */
  function FromItems(items: seq<int>): (s: BST)
    ensures Valid(s) && s.size == |items|
    ensures multiset(Inorder(s.root)) == multiset(items)
    ensures Ordered(s) && IsBST(s.root)
    decreases |items|
  {
    if |items| == 0 then Empty()
    else
      var last := |items| - 1;
      assert items == items[..last] + [items[last]];
      Add(FromItems(items[..last]), items[last])
  }

  /** Removing the given items one by one, stopping at the first failure. */
  function RemoveAll(s: BST, items: seq<int>): Result<BST>
    requires Valid(s)
    decreases |items|
  {
    if |items| == 0 then Success(s)
    else
      match Remove(s, items[0])
      case Failure(e) => Failure(e)
      case Success((s', _)) => RemoveAll(s', items[1..])
  }

  lemma RemoveAllStep(s: BST, items: seq<int>)
    requires Valid(s) && |items| > 0 && Remove(s, items[0]).Success?
    ensures RemoveAll(s, items) == RemoveAll(Remove(s, items[0]).value.0, items[1..])
  {
  }

  lemma RemoveStoredItem(s: BST, x: int)
    requires Valid(s) && Ordered(s)
    requires x in multiset(Inorder(s.root))
    ensures Remove(s, x).Success?
    ensures var s' := Remove(s, x).value.0;
            && Valid(s') && Ordered(s')
            && multiset(Inorder(s'.root)) == multiset(Inorder(s.root)) - multiset{x}
  {
    assert x in Inorder(s.root);
  }

  /** Removing every stored item, in any order, succeeds at each step and leaves the collection
      empty. */
  lemma {:induction false} RemoveEveryItemEmpties(s: BST, items: seq<int>)
    requires Valid(s) && Ordered(s)
    requires multiset(items) == multiset(Inorder(s.root))
    ensures RemoveAll(s, items) == Success(Empty())
    decreases |items|
  {
    if |items| == 0 {
      NothingStoredIsEmpty(s);
    } else {
      var x, rest := items[0], items[1..];
      MultisetHead(items);
      RemoveStoredItem(s, x);
      var s' := Remove(s, x).value.0;
      RemoveAllStep(s, items);
      RemoveEveryItemEmpties(s', rest);
    }
  }

  lemma NothingStoredIsEmpty(s: BST)
    requires Valid(s) && multiset(Inorder(s.root)) == multiset{}
    ensures s == Empty()
  {
    assert |Inorder(s.root)| == 0;
  }

  lemma MultisetHead(items: seq<int>)
    requires |items| > 0
    ensures items[0] in multiset(items)
    ensures multiset(items[1..]) == multiset(items) - multiset{items[0]}
  {
    assert items == [items[0]] + items[1..];
  }

  /** Adding a list of items to a new collection and then removing them all empties it. */
  lemma AddThenRemoveAllEmpties(items: seq<int>)
    ensures RemoveAll(FromItems(items), items) == Success(Empty())
  {
    RemoveEveryItemEmpties(FromItems(items), items);
  }
}

=== FILE: lookup.dfy ===
/** Lookups that descend from the root: `find`, `__contains__` and `replace`. */
module Lookup {
  import opened Wrappers
  import opened Sequences
  import opened Trees

  /** `find`: descend, stopping at the first node whose item equals `x`; go left when `x` is
      smaller than the node's item, right otherwise. */
  function Find(t: Tree, x: int): (r: Option<int>)
    ensures r.Some? ==> r.value == x && x in Inorder(t)
  {
    match t
    case Nil => None
    case Node(l, v, rt) =>
      if x == v then Some(v)
      else if x < v then Find(l, x)
      else Find(rt, x)
  }

  /** `__contains__`: whether `find` matched. */
  predicate Contains(t: Tree, x: int)
    ensures Contains(t, x) ==> x in Inorder(t)
  {
    Find(t, x) != None
  }

  /** The in-order position of the node the descent for `x` stops at, if it stops at one.
      `remove` and `replace` act on exactly this node. */
  function Locate(t: Tree, x: int): (r: Option<nat>)
    ensures r.Some? ==> r.value < Count(t)
  {
    match t
    case Nil => None
    case Node(l, v, rt) =>
      if v == x then Some(Count(l))
      else if v > x then Locate(l, x)
      else
        var p := Locate(rt, x);
        if p.Some? then Some(Count(l) + 1 + p.value) else None
  }

  /** The position the descent stops at holds `x`. */
  lemma {:induction false} LocateFindsItem(t: Tree, x: int)
    ensures Locate(t, x).Some? ==> Inorder(t)[Locate(t, x).value] == x
  {
    match t
    case Nil =>
    case Node(l, v, rt) =>
      LocateFindsItem(l, x);
      LocateFindsItem(rt, x);
      if Locate(t, x).Some? && v < x {
        var p := Locate(rt, x).value;
        assert Inorder(t)[Count(l) + 1 + p] == Inorder(rt)[p];
      }
  }

  /** The descent stops at a node exactly when `find` matches. */
  lemma {:induction false} LocateIffContains(t: Tree, x: int)
    ensures Locate(t, x).Some? <==> Contains(t, x)
  {
    match t
    case Nil =>
    case Node(l, v, rt) =>
      LocateIffContains(l, x);
      LocateIffContains(rt, x);
  }

  lemma LocateLeft(l: Tree, v: int, rt: Tree, x: int)
    requires x < v
    ensures Locate(Node(l, v, rt), x) == Locate(l, x)
  {
    assert !(v == x) && v > x;
  }

  lemma LocateRight(l: Tree, v: int, rt: Tree, x: int)
    requires v < x
    ensures Locate(Node(l, v, rt), x) ==
            if Locate(rt, x).Some? then Some(Count(l) + 1 + Locate(rt, x).value) else None
  {
  }

  /** On a tree whose in-order list is non-decreasing, `find` succeeds exactly for the stored
      items: the descent never passes over the place an item would be. */
  lemma {:induction false} FindComplete(t: Tree, x: int)
    requires Sorted(Inorder(t))
    ensures Contains(t, x) <==> x in Inorder(t)
  {
    match t
    case Nil =>
    case Node(l, v, rt) =>
      SortedSplit(Inorder(l), v, Inorder(rt));
      if x == v {
      } else if x < v {
        FindComplete(l, x);
        assert x !in Inorder(rt);
      } else {
        FindComplete(rt, x);
        assert x !in Inorder(l);
      }
  }

  /** `replace`: the same descent as `find`; the node it stops at gets `y` as its item and the
      old item is returned, otherwise nothing changes and `None` is returned. */
  function Replace(t: Tree, x: int, y: int): (r: (Tree, Option<int>))
    ensures r.1 == Find(t, x)
    ensures SameShape(r.0, t)
    ensures Locate(t, x).None? ==> r.0 == t
    ensures Locate(t, x).Some? ==> Inorder(r.0) == Inorder(t)[Locate(t, x).value := y]
  {
    match t
    case Nil => (Nil, None)
    case Node(l, v, rt) =>
      SameShapeReflexive(l);
      SameShapeReflexive(rt);
      if v == x then
        (Node(l, y, rt), Some(v))
      else if v > x then
        var (l', prev) := Replace(l, x, y);
        (Node(l', v, rt), prev)
      else
        var (rt', prev) := Replace(rt, x, y);
        (Node(l, v, rt'), prev)
  }
}

=== FILE: order_queries.dfy ===
/** Queries answered on the in-order list: `successor`, `predecessor` and `range_find`, as
    written, together with the order-statistics answers they are meant to give. */
module OrderQueries {
  import opened Wrappers
  import opened Sequences

  function Abs(n: int): nat {
    if n < 0 then -n else n
  }

  /** Python's `min(xs, key=lambda e: abs(e - x))`: the first position whose item is nearest
      to `x`. */
  function NearestIndex(xs: seq<int>, x: int): (i: nat)
    requires |xs| > 0
    ensures i < |xs|
    ensures forall j :: 0 <= j < |xs| ==> Abs(xs[i] - x) <= Abs(xs[j] - x)
    ensures forall j :: 0 <= j < i ==> Abs(xs[i] - x) < Abs(xs[j] - x)
  {
    if |xs| == 1 then 0
    else
      var j := 1 + NearestIndex(xs[1..], x);
      if Abs(xs[0] - x) <= Abs(xs[j] - x) then 0 else j
  }

  /** `successor` as written, on the in-order list `xs`. For a stored item: the item after its
      first occurrence, or `None` when it equals the last item. For an absent item: `None` past
      the last item; otherwise the item after the stored item nearest to it. Indexing an empty
      list, or past the end, raises `IndexError`. */
  function Successor(xs: seq<int>, x: int): (r: Result<Option<int>>)
    ensures |xs| == 0 ==> r == Failure(IndexError)
    ensures r.Failure? ==> r.error == IndexError
    ensures x in xs ==> r.Success?
    ensures r.Success? && r.value.Some? ==> r.value.value in xs
    ensures r == Success(None) ==> |xs| > 0 && xs[|xs| - 1] <= x
    ensures Sorted(xs) && |xs| > 0 && xs[|xs| - 1] <= x ==> r == Success(None)
  {
    if x !in xs then
      if |xs| == 0 then Failure(IndexError)
      else if x > xs[|xs| - 1] then Success(None)
      else
        var e := xs[NearestIndex(xs, x)];
        var i := IndexOf(xs, e).value;
        if i + 1 < |xs| then Success(Some(xs[i + 1])) else Failure(IndexError)
    else
      var i := IndexOf(xs, x).value;
      if x != xs[|xs| - 1] then Success(Some(xs[i + 1])) else Success(None)
  }

  /** `predecessor` as written. For a stored item: the item before its first occurrence, or
      `None` when it equals the first item. For an absent item: `None` before the first item;
      otherwise the last item of the prefix ending at the nearest stored item, which is that
      nearest item itself. */
  function Predecessor(xs: seq<int>, x: int): (r: Result<Option<int>>)
    ensures r.Failure? <==> |xs| == 0
    ensures r.Failure? ==> r.error == IndexError
    ensures r.Success? && r.value.Some? ==> r.value.value in xs
    ensures r == Success(None) ==> |xs| > 0 && x <= xs[0]
    ensures Sorted(xs) && |xs| > 0 && x <= xs[0] ==> r == Success(None)
  {
    if x !in xs then
      if |xs| == 0 then Failure(IndexError)
      else if x < xs[0] then Success(None)
      else
        var e := xs[NearestIndex(xs, x)];
        var i := IndexOf(xs, e).value;
        var prefix := xs[..i + 1];
        Success(Some(prefix[|prefix| - 1]))
    else
      var i := IndexOf(xs, x).value;
      if x != xs[0] then Success(Some(xs[..i][i - 1])) else Success(None)
  }

  /** The documented successor: the smallest stored item strictly greater than `x`. */
  function SuccessorFixed(xs: seq<int>, x: int): (r: Option<int>)
    ensures Sorted(xs) ==> (r.None? <==> forall v :: v in xs ==> v <= x)
    ensures Sorted(xs) && r.Some? ==>
              r.value in xs && x < r.value && forall v :: v in xs && x < v ==> r.value <= v
  {
    var k := UpperIndex(xs, x);
    FirstAbove(xs, x);
    if k < |xs| then Some(xs[k]) else None
  }

  /** The documented predecessor: the largest stored item strictly smaller than `x`. */
  function PredecessorFixed(xs: seq<int>, x: int): (r: Option<int>)
    ensures Sorted(xs) ==> (r.None? <==> forall v :: v in xs ==> x <= v)
    ensures Sorted(xs) && r.Some? ==>
              r.value in xs && r.value < x && forall v :: v in xs && v < x ==> v <= r.value
  {
    var k := LowerIndex(xs, x);
    LastBelow(xs, x);
    if k > 0 then Some(xs[k - 1]) else None
  }

  /** For a stored item of a duplicate-free list, `successor` is the next item of the list, or
      `None` after the last; on a strictly increasing list that is the smallest larger item. */
  lemma SuccessorOfStored(xs: seq<int>, x: int, p: nat)
    requires NoDuplicates(xs)
    requires p < |xs| && xs[p] == x
    ensures Successor(xs, x) == Success(if p + 1 < |xs| then Some(xs[p + 1]) else None)
    ensures StrictlySorted(xs) ==> Successor(xs, x) == Success(SuccessorFixed(xs, x))
  {
    assert IndexOf(xs, x) == Some(p);
    if StrictlySorted(xs) {
      assert Sorted(xs);
      UpperIndexSplits(xs, x);
      assert p < UpperIndex(xs, x);
      if p + 1 < |xs| {
        assert xs[p] < xs[p + 1];
        assert !(p + 1 < UpperIndex(xs, x));
      }
    }
  }

  /** For a stored item of a duplicate-free list, `predecessor` is the previous item of the
      list, or `None` before the first; on a strictly increasing list that is the largest
      smaller item. */
  lemma PredecessorOfStored(xs: seq<int>, x: int, p: nat)
    requires NoDuplicates(xs)
    requires p < |xs| && xs[p] == x
    ensures Predecessor(xs, x) == Success(if p > 0 then Some(xs[p - 1]) else None)
    ensures StrictlySorted(xs) ==> Predecessor(xs, x) == Success(PredecessorFixed(xs, x))
  {
    assert IndexOf(xs, x) == Some(p);
    if StrictlySorted(xs) {
      assert Sorted(xs);
      LowerIndexSplits(xs, x);
      assert LowerIndex(xs, x) == p;
    }
  }

  /** An absent item between stored ones whose nearest stored item lies above it: `successor`
      skips that nearest item (which is the true successor) and returns the one after it. */
  lemma SuccessorSkipsNearestAbove()
    ensures Successor([1, 5, 9], 4) == Success(Some(9))
    ensures SuccessorFixed([1, 5, 9], 4) == Some(5)
  {
    var xs := [1, 5, 9];
    assert xs[1..] == [5, 9] && xs[1..][1..] == [9];
    assert NearestIndex([9], 4) == 0;
    assert NearestIndex([5, 9], 4) == 0;
    assert NearestIndex(xs, 4) == 1;
    assert 4 !in xs;
    assert IndexOf(xs, 5) == Some(1);
    assert UpperIndex(xs[1..], 4) == 0;
    assert UpperIndex(xs, 4) == 1;
  }

  /** An absent item below every stored one: `successor` skips the smallest stored item. */
  lemma SuccessorSkipsSmallest()
    ensures Successor([1, 3, 5], 0) == Success(Some(3))
    ensures SuccessorFixed([1, 3, 5], 0) == Some(1)
  {
    var xs := [1, 3, 5];
    assert xs[1..] == [3, 5] && xs[1..][1..] == [5];
    assert NearestIndex([5], 0) == 0;
    assert NearestIndex([3, 5], 0) == 0;
    assert NearestIndex(xs, 0) == 0;
    assert 0 !in xs;
    assert IndexOf(xs, 1) == Some(0);
    assert UpperIndex(xs, 0) == 0;
  }

  /** When that nearest item is the last one, `successor` raises instead of answering. */
  lemma SuccessorRaisesBelowLast()
    ensures Successor([1, 5], 4) == Failure(IndexError)
    ensures SuccessorFixed([1, 5], 4) == Some(5)
  {
    var xs := [1, 5];
    assert xs[1..] == [5];
    assert NearestIndex([5], 4) == 0;
    assert NearestIndex(xs, 4) == 1;
    assert 4 !in xs;
    assert IndexOf(xs, 5) == Some(1);
    assert UpperIndex(xs[1..], 4) == 0;
    assert UpperIndex(xs, 4) == 1;
  }

  /** On an empty collection `successor` indexes the last item of an empty list and raises,
      where its documentation promises `None`. */
  lemma SuccessorRaisesOnEmpty(x: int)
    ensures Successor([], x) == Failure(IndexError)
    ensures SuccessorFixed([], x) == None
  {
  }

  /** On an empty collection `predecessor` indexes the first item of an empty list and raises,
      where its documentation promises `None`. */
  lemma PredecessorRaisesOnEmpty(x: int)
    ensures Predecessor([], x) == Failure(IndexError)
    ensures PredecessorFixed([], x) == None
  {
  }

  /** An absent item whose nearest stored item lies above it: `predecessor` returns that
      larger item. */
  lemma PredecessorReturnsLargerNearest()
    ensures Predecessor([1, 5], 4) == Success(Some(5))
    ensures PredecessorFixed([1, 5], 4) == Some(1)
  {
    var xs := [1, 5];
    assert xs[1..] == [5];
    assert NearestIndex([5], 4) == 0;
    assert NearestIndex(xs, 4) == 1;
    assert 4 !in xs;
    assert IndexOf(xs, 5) == Some(1);
    assert xs[..2] == xs;
    assert LowerIndex(xs[1..], 4) == 0;
    assert LowerIndex(xs, 4) == 1;
  }

  /** `range_find`: the slice of the in-order list from the first position of `low` through
      the first position of `high`; Python's slicing gives nothing when that range is
      reversed, and `list.index` raises `ValueError` for a bound that is not stored. */
  function RangeFind(xs: seq<int>, low: int, high: int): (r: Result<seq<int>>)
    ensures r.Failure? <==> low !in xs || high !in xs
    ensures r.Failure? ==> r.error == ValueError
  {
    match IndexOf(xs, low)
    case None => Failure(ValueError)
    case Some(i) =>
      match IndexOf(xs, high)
      case None => Failure(ValueError)
      case Some(j) => Success(if j + 1 <= i then [] else xs[i..j + 1])
  }

  /** With both bounds stored in a strictly increasing list, `range_find` returns exactly the
      stored items from `low` to `high`, in increasing order. */
  lemma RangeFindBetween(xs: seq<int>, low: int, high: int)
    requires StrictlySorted(xs)
    requires low in xs && high in xs
    ensures RangeFind(xs, low, high).Success?
    ensures StrictlySorted(RangeFind(xs, low, high).value)
    ensures forall v :: v in RangeFind(xs, low, high).value <==> v in xs && low <= v <= high
  {
    var i, j := IndexOf(xs, low).value, IndexOf(xs, high).value;
    var r := RangeFind(xs, low, high).value;
    if j < i {
      assert high < low by {
        assert xs[j] < xs[i];
      }
      assert r == [];
    } else {
      assert r == xs[i..j + 1];
      StrictlySortedSlice(xs, i, j);
      forall v ensures v in r <==> v in xs && low <= v <= high {
        assert v in xs[i..j + 1] <==> v in xs && xs[i] <= v <= xs[j];
      }
    }
  }

  /** With both bounds stored in a non-decreasing list, a reversed range is empty. */
  lemma RangeFindReversedIsEmpty(xs: seq<int>, low: int, high: int)
    requires Sorted(xs)
    requires low in xs && high in xs && high < low
    ensures RangeFind(xs, low, high) == Success([])
  {
  }
}

=== FILE: removal.dfy ===
/** `remove`: unlink the node the descent stops at. A node with two children takes the
    largest item of its left subtree, whose node is unlinked instead; any other node is
    replaced in its parent's slot by its only child, or by nothing. */
module Removal {
  import opened Wrappers
  import opened Sequences
  import opened Trees
  import opened Lookup

  /** `liftmaxinleftsubtreetotop` applied to the left subtree `t`: follow right children to the
      last node, take its item, and put its left child in its place. The item taken is the
      last of the in-order list and the rest of that list is what remains. */
  function RemoveMax(t: Tree): (r: (int, Tree))
    requires t.Node?
    ensures Inorder(r.1) + [r.0] == Inorder(t)
  {
    if t.right == Nil then
      (t.data, t.left)
    else
      var (m, rt') := RemoveMax(t.right);
      (m, Node(t.left, t.data, rt'))
  }

  /** The item lifted is the largest of the subtree when its in-order list is non-decreasing. */
  lemma LiftedItemIsMaximum(t: Tree)
    requires t.Node? && Sorted(Inorder(t))
    ensures RemoveMax(t).0 in Inorder(t)
    ensures forall y :: y in Inorder(t) ==> y <= RemoveMax(t).0
  {
    var (m, t') := RemoveMax(t);
    var xs := Inorder(t);
    assert xs[|xs| - 1] == m;
    forall y | y in xs ensures y <= m {
      var i :| 0 <= i < |xs| && xs[i] == y;
    }
  }

  /** Unlinking the node `t` from its parent's slot: with two children it keeps its place and
      takes the lifted maximum of its left subtree, otherwise its only child (or nothing)
      takes its place. Either way exactly its own item leaves the in-order list. */
  function RemoveRoot(t: Tree): (r: Tree)
    requires t.Node?
    ensures Inorder(r) == Inorder(t.left) + Inorder(t.right)
  {
    if t.left != Nil && t.right != Nil then
      var (m, l') := RemoveMax(t.left);
      Node(l', m, t.right)
    else if t.left == Nil then
      t.right
    else
      t.left
  }

  /** The tree part of `remove`: unlink the node the descent for `x` stops at; when it
      stops at no node the tree is unchanged. */
  function Delete(t: Tree, x: int): (r: Tree)
    ensures !Contains(t, x) ==> r == t
  {
    match t
    case Nil => Nil
    case Node(l, v, rt) =>
      if v == x then RemoveRoot(t)
      else if v > x then Node(Delete(l, x), v, rt)
      else Node(l, v, Delete(rt, x))
  }

  /** `remove` takes out of the in-order list exactly the item at the position of the node the
      descent stops at, and nothing else. */
  lemma {:induction false} DeleteInorder(t: Tree, x: int)
    requires Locate(t, x).Some?
    ensures Inorder(Delete(t, x)) == RemoveAt(Inorder(t), Locate(t, x).value)
  {
    match t
    case Node(l, v, rt) =>
      if v == x {
        RemoveAtPivot(Inorder(l), v, Inorder(rt));
      } else if v > x {
        DeleteInorder(l, x);
        DeleteInorderLeft(l, v, rt, x);
      } else {
        DeleteInorder(rt, x);
        DeleteInorderRight(l, v, rt, x);
      }
  }

  /** The step of `DeleteInorder` for a descent that turns left at the root. */
  lemma DeleteInorderLeft(l: Tree, v: int, rt: Tree, x: int)
    requires x < v && Locate(l, x).Some?
    requires Inorder(Delete(l, x)) == RemoveAt(Inorder(l), Locate(l, x).value)
    ensures Inorder(Delete(Node(l, v, rt), x)) == RemoveAt(Inorder(Node(l, v, rt)), Locate(Node(l, v, rt), x).value)
  {
    var t := Node(l, v, rt);
    var a, b, q := Inorder(l), Inorder(rt), Locate(l, x).value;
    calc {
      Inorder(Delete(t, x));
    == { assert Delete(t, x) == Node(Delete(l, x), v, rt); }
      Inorder(Delete(l, x)) + [v] + b;
    ==
      RemoveAt(a, q) + [v] + b;
    == { RemoveAtBeforePivot(a, v, b, q); }
      RemoveAt(a + [v] + b, q);
    == { LocateLeft(l, v, rt, x); }
      RemoveAt(Inorder(t), Locate(t, x).value);
    }
  }

  /** The step of `DeleteInorder` for a descent that turns right at the root. */
  lemma DeleteInorderRight(l: Tree, v: int, rt: Tree, x: int)
    requires v < x && Locate(rt, x).Some?
    requires Inorder(Delete(rt, x)) == RemoveAt(Inorder(rt), Locate(rt, x).value)
    ensures Inorder(Delete(Node(l, v, rt), x)) == RemoveAt(Inorder(Node(l, v, rt)), Locate(Node(l, v, rt), x).value)
  {
    var t := Node(l, v, rt);
    var a, b, q := Inorder(l), Inorder(rt), Locate(rt, x).value;
    calc {
      Inorder(Delete(t, x));
    == { assert Delete(t, x) == Node(l, v, Delete(rt, x)); }
      a + [v] + Inorder(Delete(rt, x));
    ==
      a + [v] + RemoveAt(b, q);
    == { RemoveAtAfterPivot(a, v, b, q); }
      RemoveAt(a + [v] + b, |a| + 1 + q);
    == { LocateRight(l, v, rt, x); }
      RemoveAt(Inorder(t), Locate(t, x).value);
    }
  }

  /** On a duplicate-free tree `remove` keeps the documented ordering. */
  lemma DeleteKeepsBst(t: Tree, x: int)
    requires IsBST(t) && NoDuplicates(Inorder(t))
    ensures IsBST(Delete(t, x))
  {
    BstInorderSorted(t);
    StrictlySortedFromSorted(Inorder(t));
    LocateIffContains(t, x);
    if Contains(t, x) {
      DeleteInorder(t, x);
      RemoveAtKeepsOrder(Inorder(t), Locate(t, x).value);
      StrictlySortedIsBst(Delete(t, x));
    }
  }

  /** What `remove` relies on when the descent finds `x`: one occurrence of `x` leaves the
      items, the count drops by one and the weak ordering is kept. */
  lemma DeleteRemovesOne(t: Tree, x: int)
    requires Contains(t, x)
    ensures multiset(Inorder(Delete(t, x))) == multiset(Inorder(t)) - multiset{x}
    ensures Count(Delete(t, x)) == Count(t) - 1
    ensures Sorted(Inorder(t)) ==> Sorted(Inorder(Delete(t, x)))
  {
    LocateIffContains(t, x);
    LocateFindsItem(t, x);
    DeleteInorder(t, x);
    RemoveAtMultiset(Inorder(t), Locate(t, x).value);
    RemoveAtKeepsOrder(Inorder(t), Locate(t, x).value);
  }

  /** With duplicates it need not: removing 5 lifts the lower of two 3s into the root while the
      other 3 stays in the left subtree, which should hold only smaller items. The in-order list
      stays non-decreasing. */
  lemma DuplicateMayBreakStrictOrdering()
    ensures var t := Node(Node(Nil, 3, Node(Nil, 3, Nil)), 5, Node(Nil, 7, Nil));
            && IsBST(t)
            && Delete(t, 5) == Node(Node(Nil, 3, Nil), 3, Node(Nil, 7, Nil))
            && !IsBST(Delete(t, 5))
            && Sorted(Inorder(Delete(t, 5)))
  {
    var t := Node(Node(Nil, 3, Node(Nil, 3, Nil)), 5, Node(Nil, 7, Nil));
    assert Inorder(Node(Nil, 3, Nil)) == [3];
    assert Inorder(Node(Nil, 3, Node(Nil, 3, Nil))) == [3, 3];
    assert Inorder(Node(Nil, 7, Nil)) == [7];
    assert 3 in Inorder(Node(Nil, 3, Nil));
  }
}

=== FILE: sequences.dfy ===
/** Facts about lists of items: the orderings an in-order list can have, Python's
    `list.index`, sorted insertion and removal at a position. */
module Sequences {
  import opened Wrappers

  /** Non-decreasing: the ordering of the in-order list of a search tree that admits duplicates. */
  predicate Sorted(xs: seq<int>) {
    forall i, j :: 0 <= i < j < |xs| ==> xs[i] <= xs[j]
  }

  /** Strictly increasing: the in-order list of a duplicate-free search tree. */
  predicate StrictlySorted(xs: seq<int>) {
    forall i, j :: 0 <= i < j < |xs| ==> xs[i] < xs[j]
  }

  predicate NoDuplicates(xs: seq<int>) {
    forall i, j :: 0 <= i < j < |xs| ==> xs[i] != xs[j]
  }

  lemma StrictlySortedFromSorted(xs: seq<int>)
    requires Sorted(xs) && NoDuplicates(xs)
    ensures StrictlySorted(xs)
  {
  }

  /** Python's `list.index`: the first position holding `x`, or `None` where Python raises. */
  function IndexOf(xs: seq<int>, x: int): (r: Option<nat>)
    ensures r.Some? ==> r.value < |xs| && xs[r.value] == x
    ensures r.Some? ==> forall j :: 0 <= j < r.value ==> xs[j] != x
    ensures r.None? <==> x !in xs
  {
    if |xs| == 0 then None
    else if xs[0] == x then Some(0)
    else
      assert xs == [xs[0]] + xs[1..];
      match IndexOf(xs[1..], x)
      case None => None
      case Some(i) => Some(i + 1)
  }

  /** The length of the longest prefix whose items are all `<= x`: where an item equal to
      others goes when it is placed after them. */
  function UpperIndex(xs: seq<int>, x: int): (k: nat)
    ensures k <= |xs|
    ensures forall i :: 0 <= i < k ==> xs[i] <= x
    ensures k < |xs| ==> x < xs[k]
  {
    if |xs| == 0 || x < xs[0] then 0 else 1 + UpperIndex(xs[1..], x)
  }

  /** The length of the longest prefix whose items are all `< x`. */
  function LowerIndex(xs: seq<int>, x: int): (k: nat)
    ensures k <= |xs|
    ensures forall i :: 0 <= i < k ==> xs[i] < x
    ensures k < |xs| ==> x <= xs[k]
  {
    if |xs| == 0 || x <= xs[0] then 0 else 1 + LowerIndex(xs[1..], x)
  }

  /** Scanning a concatenation: the prefix of items `<= x` stops in `a` or runs on into `b`. */
  lemma {:induction false} UpperIndexAppend(a: seq<int>, b: seq<int>, x: int)
    ensures UpperIndex(a + b, x) ==
            if UpperIndex(a, x) < |a| then UpperIndex(a, x) else |a| + UpperIndex(b, x)
  {
    if |a| == 0 {
      assert a + b == b;
    } else {
      assert (a + b)[0] == a[0];
      if x < a[0] {
      } else {
        assert (a + b)[1..] == a[1..] + b;
        UpperIndexAppend(a[1..], b, x);
      }
    }
  }

  /** In a sorted list the items `<= x` are exactly the prefix `UpperIndex` measures. */
  lemma UpperIndexSplits(xs: seq<int>, x: int)
    ensures Sorted(xs) ==> forall i :: 0 <= i < |xs| ==> (xs[i] <= x <==> i < UpperIndex(xs, x))
  {
  }

  /** In a sorted list the items `< x` are exactly the prefix `LowerIndex` measures. */
  lemma LowerIndexSplits(xs: seq<int>, x: int)
    ensures Sorted(xs) ==> forall i :: 0 <= i < |xs| ==> (xs[i] < x <==> i < LowerIndex(xs, x))
  {
  }

  /** In a sorted list the item at `UpperIndex` is the smallest item above `x`, and there is
      none exactly when `UpperIndex` runs to the end. */
  lemma FirstAbove(xs: seq<int>, x: int)
    ensures Sorted(xs) ==> (UpperIndex(xs, x) == |xs| <==> forall v :: v in xs ==> v <= x)
    ensures Sorted(xs) && UpperIndex(xs, x) < |xs| ==>
              forall v :: v in xs && x < v ==> xs[UpperIndex(xs, x)] <= v
  {
    var k := UpperIndex(xs, x);
    if Sorted(xs) {
      UpperIndexSplits(xs, x);
      forall v | v in xs ensures (k == |xs| ==> v <= x) && (k < |xs| && x < v ==> xs[k] <= v) {
        var i :| 0 <= i < |xs| && xs[i] == v;
      }
      if k < |xs| {
        assert xs[k] in xs;
      }
    }
  }

  /** In a sorted list the item just before `LowerIndex` is the largest item below `x`, and there
      is none exactly when `LowerIndex` is 0. */
  lemma LastBelow(xs: seq<int>, x: int)
    ensures Sorted(xs) ==> (LowerIndex(xs, x) == 0 <==> forall v :: v in xs ==> x <= v)
    ensures Sorted(xs) && LowerIndex(xs, x) > 0 ==>
              forall v :: v in xs && v < x ==> v <= xs[LowerIndex(xs, x) - 1]
  {
    var k := LowerIndex(xs, x);
    if Sorted(xs) {
      LowerIndexSplits(xs, x);
      forall v | v in xs ensures (k == 0 ==> x <= v) && (k > 0 && v < x ==> v <= xs[k - 1]) {
        var i :| 0 <= i < |xs| && xs[i] == v;
      }
      if k > 0 {
        assert xs[k - 1] in xs;
      }
    }
  }

  /** A slice of a strictly increasing list holds exactly the items between its end items. */
  lemma StrictlySortedSlice(xs: seq<int>, i: nat, j: nat)
    requires StrictlySorted(xs) && i <= j < |xs|
    ensures StrictlySorted(xs[i..j + 1])
    ensures forall v :: v in xs[i..j + 1] <==> v in xs && xs[i] <= v <= xs[j]
  {
    var r := xs[i..j + 1];
    forall v ensures v in r <==> v in xs && xs[i] <= v <= xs[j] {
      if v in r {
        var k :| 0 <= k < |r| && r[k] == v;
        assert xs[i + k] == v;
      }
      if v in xs && xs[i] <= v <= xs[j] {
        var k :| 0 <= k < |xs| && xs[k] == v;
        assert i <= k <= j;
        assert r[k - i] == v;
      }
    }
  }

  /** `xs` with `x` inserted after every item `<= x`: for a sorted list, its sorted position
      after any items equal to it. */
  function SortedInsert(xs: seq<int>, x: int): (r: seq<int>)
    ensures |r| == |xs| + 1
    ensures multiset(r) == multiset(xs) + multiset{x}
    ensures Sorted(xs) ==> Sorted(r)
  {
    var k := UpperIndex(xs, x);
    assert xs == xs[..k] + xs[k..];
    InsertAtUpperIndexSorted(xs, x);
    xs[..k] + [x] + xs[k..]
  }

  lemma InsertAtUpperIndexSorted(xs: seq<int>, x: int)
    ensures var k := UpperIndex(xs, x);
            Sorted(xs) ==> Sorted(xs[..k] + [x] + xs[k..])
  {
    var k := UpperIndex(xs, x);
    var r := xs[..k] + [x] + xs[k..];
    if Sorted(xs) {
      forall i, j | 0 <= i < j < |r| ensures r[i] <= r[j] {
        if j < k {
          assert r[i] == xs[i] && r[j] == xs[j];
        } else if j == k {
          assert r[i] == xs[i];
        } else if i < k {
          assert r[i] == xs[i] && r[j] == xs[j - 1];
        } else if i == k {
          assert r[j] == xs[j - 1];
        } else {
          assert r[i] == xs[i - 1] && r[j] == xs[j - 1];
        }
      }
    }
  }

  lemma SortedInsertAt(xs: seq<int>, x: int, k: nat)
    requires k == UpperIndex(xs, x)
    ensures SortedInsert(xs, x) == xs[..k] + [x] + xs[k..]
  {
  }

  lemma JoinBefore(a: seq<int>, v: int, b: seq<int>, x: int, k: nat)
    requires k <= |a|
    ensures (a + [v] + b)[..k] + [x] + (a + [v] + b)[k..] == (a[..k] + [x] + a[k..]) + [v] + b
  {
    var xs := a + [v] + b;
    assert xs[..k] == a[..k];
    assert xs[k..] == a[k..] + [v] + b;
  }

  lemma JoinAfter(a: seq<int>, v: int, b: seq<int>, x: int, k: nat)
    requires k <= |b|
    ensures (a + [v] + b)[..|a| + 1 + k] + [x] + (a + [v] + b)[|a| + 1 + k..]
         == a + [v] + (b[..k] + [x] + b[k..])
  {
    var xs := a + [v] + b;
    assert xs[..|a| + 1 + k] == a + [v] + b[..k];
    assert xs[|a| + 1 + k..] == b[k..];
  }

  /** Inserting an item smaller than the pivot only touches the part before the pivot. */
  lemma SortedInsertBeforePivot(a: seq<int>, v: int, b: seq<int>, x: int)
    requires x < v
    ensures SortedInsert(a + [v] + b, x) == SortedInsert(a, x) + [v] + b
  {
    var xs := a + [v] + b;
    var k := UpperIndex(a, x);
    assert UpperIndex(xs, x) == k by {
      assert xs == a + ([v] + b);
      UpperIndexAppend(a, [v] + b, x);
    }
    SortedInsertAt(xs, x, k);
    SortedInsertAt(a, x, k);
    JoinBefore(a, v, b, x, k);
  }

  /** Inserting an item no smaller than the pivot and everything before it only touches the
      part after the pivot. */
  lemma SortedInsertAfterPivot(a: seq<int>, v: int, b: seq<int>, x: int)
    requires forall i :: 0 <= i < |a| ==> a[i] <= x
    requires v <= x
    ensures SortedInsert(a + [v] + b, x) == a + [v] + SortedInsert(b, x)
  {
    var k := UpperIndex(b, x);
    UpperIndexPastPrefix(a, v, b, x);
    SortedInsertAt(a + [v] + b, x, |a| + 1 + k);
    SortedInsertAt(b, x, k);
    JoinAfter(a, v, b, x, k);
  }

  /** When every item of `a` and the pivot are `<= x`, the prefix of items `<= x` runs through
      them into `b`. */
  lemma UpperIndexPastPrefix(a: seq<int>, v: int, b: seq<int>, x: int)
    requires forall i :: 0 <= i < |a| ==> a[i] <= x
    requires v <= x
    ensures UpperIndex(a + [v] + b, x) == |a| + 1 + UpperIndex(b, x)
  {
    assert UpperIndex(a, x) == |a|;
    assert UpperIndex([v], x) == 1 by {
      assert [v][1..] == [];
    }
    assert a + [v] + b == a + ([v] + b);
    UpperIndexAppend(a, [v] + b, x);
    UpperIndexAppend([v], b, x);
  }

  /** `xs` without its item at position `p`. */
  function RemoveAt(xs: seq<int>, p: nat): (r: seq<int>)
    requires p < |xs|
    ensures |r| == |xs| - 1
    ensures forall i {:trigger r[i]} :: 0 <= i < p ==> r[i] == xs[i]
    ensures forall i {:trigger r[i]} :: p <= i < |r| ==> r[i] == xs[i + 1]
  {
    assert xs == xs[..p] + [xs[p]] + xs[p + 1..];
    xs[..p] + xs[p + 1..]
  }

  /** Removing position `p` takes away one occurrence of the item there and nothing else. */
  lemma RemoveAtMultiset(xs: seq<int>, p: nat)
    requires p < |xs|
    ensures multiset(RemoveAt(xs, p)) == multiset(xs) - multiset{xs[p]}
  {
    assert xs == xs[..p] + [xs[p]] + xs[p + 1..];
  }

  /** Removing an item keeps every ordering the list has. */
  lemma RemoveAtKeepsOrder(xs: seq<int>, p: nat)
    requires p < |xs|
    ensures Sorted(xs) ==> Sorted(RemoveAt(xs, p))
    ensures StrictlySorted(xs) ==> StrictlySorted(RemoveAt(xs, p))
  {
    var r := RemoveAt(xs, p);
    assert forall i :: 0 <= i < |r| ==> r[i] == xs[if i < p then i else i + 1];
    DropKeepsOrder(xs, r, p);
  }

  /** A list whose items are those of `xs` in order with position `p` skipped keeps every
      ordering `xs` has. */
  lemma DropKeepsOrder(xs: seq<int>, r: seq<int>, p: nat)
    requires p < |xs| && |r| == |xs| - 1
    requires forall i :: 0 <= i < |r| ==> r[i] == xs[if i < p then i else i + 1]
    ensures Sorted(xs) ==> Sorted(r)
    ensures StrictlySorted(xs) ==> StrictlySorted(r)
  {
    forall i, j | 0 <= i < j < |r|
      ensures var i', j' := (if i < p then i else i + 1), (if j < p then j else j + 1);
              0 <= i' < j' < |xs| && r[i] == xs[i'] && r[j] == xs[j']
    {
    }
  }

  /** Removing a position before the pivot only touches the part before the pivot. */
  lemma RemoveAtBeforePivot(a: seq<int>, v: int, b: seq<int>, p: nat)
    requires p < |a|
    ensures RemoveAt(a + [v] + b, p) == RemoveAt(a, p) + [v] + b
  {
    var xs := a + [v] + b;
    assert xs[..p] == a[..p];
    assert xs[p + 1..] == a[p + 1..] + [v] + b;
  }

  /** Removing the pivot leaves the parts on either side of it. */
  lemma RemoveAtPivot(a: seq<int>, v: int, b: seq<int>)
    ensures RemoveAt(a + [v] + b, |a|) == a + b
  {
    var xs := a + [v] + b;
    assert xs[..|a|] == a;
    assert xs[|a| + 1..] == b;
  }

  /** Removing a position after the pivot only touches the part after the pivot. */
  lemma RemoveAtAfterPivot(a: seq<int>, v: int, b: seq<int>, q: nat)
    requires q < |b|
    ensures RemoveAt(a + [v] + b, |a| + 1 + q) == a + [v] + RemoveAt(b, q)
  {
    var xs := a + [v] + b;
    assert xs[..|a| + 1 + q] == a + [v] + b[..q];
    assert xs[|a| + 1 + q + 1..] == b[q + 1..];
  }

  /** Overwriting one item of a non-decreasing list keeps it non-decreasing when the new item
      lies between the old item's neighbours. */
  lemma SortedUpdate(xs: seq<int>, p: nat, y: int)
    requires Sorted(xs) && p < |xs|
    requires p == 0 || xs[p - 1] <= y
    requires p + 1 == |xs| || y <= xs[p + 1]
    ensures Sorted(xs[p := y])
  {
    var ys := xs[p := y];
    forall i, j | 0 <= i < j < |ys| ensures ys[i] <= ys[j] {
      if i == p {
        assert y <= xs[p + 1] && xs[p + 1] <= xs[j];
      } else if j == p {
        assert xs[i] <= xs[p - 1] && xs[p - 1] <= y;
      }
    }
  }

  /** Concatenation is associative. */
  lemma ConcatAssoc<T>(a: seq<T>, b: seq<T>, c: seq<T>)
    ensures a + b + c == a + (b + c)
  {
  }

  /** Gluing two sorted lists around a pivot keeps them sorted when the pivot separates them. */
  lemma SortedJoin(a: seq<int>, v: int, b: seq<int>)
    requires Sorted(a) && Sorted(b)
    requires forall y :: y in a ==> y <= v
    requires forall y :: y in b ==> v <= y
    ensures Sorted(a + [v] + b)
  {
    var s := a + [v] + b;
    forall i, j | 0 <= i < j < |s| ensures s[i] <= s[j] {
      if j < |a| {
        assert s[i] == a[i] && s[j] == a[j];
      } else if j == |a| {
        assert s[i] == a[i] && a[i] in a;
      } else if i < |a| {
        assert s[i] == a[i] && a[i] in a;
        assert s[j] == b[j - |a| - 1] && b[j - |a| - 1] in b;
      } else if i == |a| {
        assert s[j] == b[j - |a| - 1] && b[j - |a| - 1] in b;
      } else {
        assert s[i] == b[i - |a| - 1] && s[j] == b[j - |a| - 1];
      }
    }
  }

  /** A non-decreasing list around a pivot splits into non-decreasing halves that the
      pivot separates. */
  lemma SortedSplit(a: seq<int>, v: int, b: seq<int>)
    requires Sorted(a + [v] + b)
    ensures Sorted(a) && Sorted(b)
    ensures forall y :: y in a ==> y <= v
    ensures forall y :: y in b ==> v <= y
  {
    var s := a + [v] + b;
    assert forall i :: 0 <= i < |a| ==> s[i] == a[i];
    assert forall i :: 0 <= i < |b| ==> s[|a| + 1 + i] == b[i];
    assert s[|a|] == v;
    forall y | y in a ensures y <= v {
      var i :| 0 <= i < |a| && a[i] == y;
      assert s[i] == y;
    }
    forall y | y in b ensures v <= y {
      var i :| 0 <= i < |b| && b[i] == y;
      assert s[|a| + 1 + i] == y;
    }
  }

  /** A strictly increasing list around a pivot splits into strictly increasing halves
      strictly separated by the pivot. */
  lemma StrictlySortedSplit(a: seq<int>, v: int, b: seq<int>)
    requires StrictlySorted(a + [v] + b)
    ensures StrictlySorted(a) && StrictlySorted(b)
    ensures forall y :: y in a ==> y < v
    ensures forall y :: y in b ==> v < y
  {
    var s := a + [v] + b;
    assert forall i :: 0 <= i < |a| ==> s[i] == a[i];
    assert forall i :: 0 <= i < |b| ==> s[|a| + 1 + i] == b[i];
    assert s[|a|] == v;
    forall y | y in a ensures y < v {
      var i :| 0 <= i < |a| && a[i] == y;
      assert s[i] == y;
    }
    forall y | y in b ensures v < y {
      var i :| 0 <= i < |b| && b[i] == y;
      assert s[|a| + 1 + i] == y;
    }
  }
}

=== FILE: shape.dfy ===
/** The shape of the tree: `height`, and `rebalance`'s rebuild by recursive midpoint split. */
module Shape {
  import opened Sequences
  import opened Trees

  function Max(a: int, b: int): int {
    if a < b then b else a
  }

  /** `height`: an empty tree and a leaf both have height 0; any other node is one more than
      the taller of its children, an absent child counting 0. A path of `n` nodes is as tall as
      a tree of `n` nodes can be. */
  function Height(t: Tree): (h: nat)
    ensures t.Node? ==> h < Count(t)
  {
    match t
    case Nil => 0
    case Node(l, _, r) =>
      if l == Nil && r == Nil then 0
      else 1 + Max(Height(l), Height(r))
  }

  /** The usual measure of a tree: the number of nodes on its longest root-to-leaf path. */
  function Levels(t: Tree): nat {
    match t
    case Nil => 0
    case Node(l, _, r) => 1 + Max(Levels(l), Levels(r))
  }

  /** `height` counts edges on the longest path: one less than the levels of a non-empty tree. */
  lemma {:induction false} HeightCountsEdges(t: Tree)
    ensures Height(t) == if t == Nil then 0 else Levels(t) - 1
  {
    match t
    case Nil =>
    case Node(l, _, r) =>
      HeightCountsEdges(l);
      HeightCountsEdges(r);
  }

  function Pow2(k: nat): (p: nat)
    ensures p >= 1
  {
    if k == 0 then 1 else 2 * Pow2(k - 1)
  }

  lemma {:induction false} Pow2Monotone(a: nat, b: nat)
    requires a <= b
    ensures Pow2(a) <= Pow2(b)
  {
    if a < b {
      Pow2Monotone(a, b - 1);
    }
  }

  /** The floor of the base-2 logarithm: the `k` with `2^k <= n < 2^(k+1)`. */
  function Log2(n: nat): (k: nat)
    requires n >= 1
    ensures Pow2(k) <= n < Pow2(k + 1)
  {
    if n == 1 then 0 else 1 + Log2(n / 2)
  }

  lemma {:induction false} Log2Monotone(a: nat, b: nat)
    requires 1 <= a <= b
    ensures Log2(a) <= Log2(b)
  {
    if a > 1 {
      Log2Monotone(a / 2, b / 2);
    }
  }

  /** A tree with `L` levels has fewer than `2^L` nodes. */
  lemma {:induction false} CountBelowPow2(t: Tree)
    ensures Count(t) < Pow2(Levels(t))
  {
    match t
    case Nil =>
    case Node(l, _, r) =>
      CountBelowPow2(l);
      CountBelowPow2(r);
      Pow2Monotone(Levels(l), Levels(t) - 1);
      Pow2Monotone(Levels(r), Levels(t) - 1);
  }

  /** No tree of `n >= 1` nodes has height below `floor(log2 n)`. */
  lemma HeightAtLeastLog2(t: Tree)
    requires t.Node?
    ensures Log2(Count(t)) <= Height(t)
  {
    HeightCountsEdges(t);
    CountBelowPow2(t);
    if Log2(Count(t)) >= Levels(t) {
      Pow2Monotone(Levels(t), Log2(Count(t)));
    }
  }

  /** The rebuild of `rebalance`: the item at `len // 2` (the upper middle of an even-length
      list) becomes the root, the items before it the left subtree and the items after it the
      right subtree. The in-order list of the result is the list it was built from. */
  function Build(xs: seq<int>): (t: Tree)
    ensures Inorder(t) == xs
    decreases |xs|
  {
    if |xs| == 0 then Nil
    else
      var mid := |xs| / 2;
      assert xs == xs[..mid] + [xs[mid]] + xs[mid + 1..];
      Node(Build(xs[..mid]), xs[mid], Build(xs[mid + 1..]))
  }

  lemma {:induction false} BuildLevels(xs: seq<int>)
    ensures Levels(Build(xs)) == if |xs| == 0 then 0 else Log2(|xs|) + 1
    decreases |xs|
  {
    if |xs| > 0 {
      var n, mid := |xs|, |xs| / 2;
      var a, b := xs[..mid], xs[mid + 1..];
      assert |a| == mid && |b| == n - mid - 1;
      assert Build(xs) == Node(Build(a), xs[mid], Build(b));
      BuildLevels(a);
      BuildLevels(b);
      if n >= 2 {
        assert Log2(n) == 1 + Log2(mid);
        assert Levels(Build(a)) == Log2(mid) + 1;
        if |b| >= 1 {
          Log2Monotone(|b|, mid);
        }
        assert Levels(Build(b)) <= Levels(Build(a));
      }
    }
  }

  /** The rebuilt tree of `n >= 1` items has height `floor(log2 n)`. */
  lemma BuildHeight(xs: seq<int>)
    requires |xs| >= 1
    ensures Height(Build(xs)) == Log2(|xs|)
  {
    BuildLevels(xs);
    HeightCountsEdges(Build(xs));
  }

  /** So no tree holding as many items is shorter than the rebuilt one. */
  lemma BuildIsShortest(xs: seq<int>, t: Tree)
    requires |xs| == Count(t) >= 1
    ensures Height(Build(xs)) <= Height(t)
  {
    BuildHeight(xs);
    HeightAtLeastLog2(t);
  }

  /** Every node's two subtrees differ in size by at most one. */
  predicate SizeBalanced(t: Tree) {
    match t
    case Nil => true
    case Node(l, _, r) =>
      && SizeBalanced(l) && SizeBalanced(r)
      && -1 <= Count(l) - Count(r) <= 1
  }

  /** The midpoint split gives every node subtrees of equal size, or a left subtree one larger. */
  lemma {:induction false} BuildSizeBalanced(xs: seq<int>)
    ensures SizeBalanced(Build(xs))
    ensures xs != [] ==> Count(Build(xs).left) - Count(Build(xs).right) in {0, 1}
    decreases |xs|
  {
    if |xs| > 0 {
      var mid := |xs| / 2;
      BuildSizeBalanced(xs[..mid]);
      BuildSizeBalanced(xs[mid + 1..]);
    }
  }

  /** A strictly increasing list is rebuilt into a tree with the documented ordering. */
  lemma BuildStrictlySortedIsBst(xs: seq<int>)
    requires StrictlySorted(xs)
    ensures IsBST(Build(xs))
  {
    StrictlySortedIsBst(Build(xs));
  }

  /** With duplicates it need not be: `[3, 3]` is rebuilt with the second 3 at the root and the
      first in its left subtree. */
  lemma DuplicateMayBreakStrictOrderingOnRebuild()
    ensures Build([3, 3]) == Node(Node(Nil, 3, Nil), 3, Nil)
    ensures !IsBST(Build([3, 3]))
  {
    assert [3, 3][..1] == [3] && [3, 3][2..] == [];
    assert [3][..0] == [] && [3][1..] == [];
    assert Build([]) == Nil;
    assert Build([3]) == Node(Nil, 3, Nil);
    assert Build([3, 3]) == Node(Node(Nil, 3, Nil), 3, Nil);
    assert 3 in Inorder(Node(Nil, 3, Nil));
  }
}

=== FILE: trees.dfy ===
/** The node graph of the linked search tree and its two traversals. */
module Trees {
  import opened Sequences

  /** A tree of nodes; each node owns its children. The search discipline routes items
      strictly smaller than `data` into `left` and the rest into `right`. */
  datatype Tree = Nil | Node(left: Tree, data: int, right: Tree)

  /** The number of nodes. */
  function Count(t: Tree): nat {
    match t
    case Nil => 0
    case Node(l, _, r) => Count(l) + 1 + Count(r)
  }

  /** The in-order list (left subtree, node, right subtree), which `inorder` yields. */
  function Inorder(t: Tree): (xs: seq<int>)
    ensures |xs| == Count(t)
  {
    match t
    case Nil => []
    case Node(l, v, r) => Inorder(l) + [v] + Inorder(r)
  }

  /** The pre-order list (node, left subtree, right subtree), which default iteration yields:
      the same items as the in-order list, in another order. */
  function Preorder(t: Tree): (xs: seq<int>)
    ensures multiset(xs) == multiset(Inorder(t))
  {
    match t
    case Nil => []
    case Node(l, v, r) => [v] + Preorder(l) + Preorder(r)
  }

  /** The search-tree ordering as the class documents it: everything in a left subtree is
      strictly smaller than the node, everything in a right subtree greater or equal. */
  predicate IsBST(t: Tree) {
    match t
    case Nil => true
    case Node(l, v, r) =>
      && IsBST(l) && IsBST(r)
      && (forall y :: y in Inorder(l) ==> y < v)
      && (forall y :: y in Inorder(r) ==> v <= y)
  }

  /** Two trees with nodes in the same places, whatever the items in them. */
  predicate SameShape(a: Tree, b: Tree) {
    match (a, b)
    case (Nil, Nil) => true
    case (Node(al, _, ar), Node(bl, _, br)) => SameShape(al, bl) && SameShape(ar, br)
    case _ => false
  }

  lemma SameShapeReflexive(t: Tree)
    ensures SameShape(t, t)
  {
  }

  /** The documented ordering makes the in-order list non-decreasing. */
  lemma {:induction false} BstInorderSorted(t: Tree)
    requires IsBST(t)
    ensures Sorted(Inorder(t))
  {
    match t
    case Nil =>
    case Node(l, v, r) =>
      BstInorderSorted(l);
      BstInorderSorted(r);
      SortedJoin(Inorder(l), v, Inorder(r));
  }

  /** Conversely a strictly increasing in-order list gives the documented ordering. */
  lemma {:induction false} StrictlySortedIsBst(t: Tree)
    requires StrictlySorted(Inorder(t))
    ensures IsBST(t)
  {
    match t
    case Nil =>
    case Node(l, v, r) =>
      StrictlySortedSplit(Inorder(l), v, Inorder(r));
      StrictlySortedIsBst(l);
      StrictlySortedIsBst(r);
  }

  /** For a duplicate-free tree the documented ordering and a strictly increasing in-order
      list are the same thing. */
  lemma DuplicateFreeBstIff(t: Tree)
    requires NoDuplicates(Inorder(t))
    ensures IsBST(t) <==> StrictlySorted(Inorder(t))
  {
    if IsBST(t) {
      BstInorderSorted(t);
      StrictlySortedFromSorted(Inorder(t));
    }
    if StrictlySorted(Inorder(t)) {
      StrictlySortedIsBst(t);
    }
  }
}

=== FILE: wrappers.dfy ===
/** Failure-carrying results for the collection's operations. */
module Wrappers {

  /** An optional item: the `None` a lookup returns when nothing matches. */
  datatype Option<+T> = None | Some(value: T)

  /** The exceptions the collection's operations can raise. */
  datatype Error =
    | KeyError    // `remove` of an item that is not stored
    | ValueError  // `list.index` of a bound that is not stored
    | IndexError  // indexing past either end of the in-order list

  /** Either the value an operation returns or the exception it raises. */
  datatype Result<+T> = Success(value: T) | Failure(error: Error)
}
